=== FILE: README.md ===
# Users, stores and products: business rules of a small CRUD API

This is a Dafny model of the rule layer of an Express + Prisma API that manages users (`/usuarios`), their stores (`/stores`) and the stores' products (`/products`, `/stores/:storeId/products`). The model covers three pieces:

- **The user-payload middlewares** `validateUserCreation` and `validateUserUpdate` (module `Validation`). They check presence, the e-mail pattern `^[^\s@]+@[^\s@]+\.[^\s@]+$` and minimum lengths, in a fixed order. The pattern is given twice in module `Email`: once as the regular expression reads (three non-empty runs of `[^\s@]` separated by `@` and `.`) and once as an executable scan. `Email.ShapeIsPattern` proves that the two agree on every string. Lengths are JavaScript lengths, in UTF-16 code units (`Js.Utf16Length`).
- **The three controllers** (`UserController`, `StoreController`, `ProductController`). Each one is a set of pure functions from a database and a request to an `Outcome`: a reply (status plus payload) and the database afterwards. The database (`Database.Db`) holds three maps keyed by id and the next value of each table's auto-increment sequence. Every controller contract says which condition leads to which error reason and therefore which status. Read together, they say in what order the checks fire. A failed request leaves the database unchanged, and a successful one changes exactly the rows it names.
- **The error middlewares** `errorHandler` and `notFoundHandler` (module `ErrorHandler`).

Several modules prove properties across operations:

- `Integrity` and `Api` prove that the data-model rules (`Database.Valid`) hold in an empty database and survive every request and every sequence of requests. The rules are: ids issued by the sequences, unique e-mails, every store owned by an existing user, at most one store per user, every product in an existing store, and positive prices.
- `RoundTrips` relates operations to each other: create then read, update then read, delete then read, and a repeated create.
- `Scenarios` evaluates a concrete request sequence.

Modelling choices, each taken from the code:

- **Body fields.** A request-body field is `Absent` (JavaScript `undefined`) or `Present(v)`. The controllers' `!x` tests are modelled as JavaScript truthiness: `""` counts as missing, an id of `0` counts as missing, and a price of `0` counts as missing (`Js.TruthyText`, `TruthyId`, `TruthyNumber`).
- **Partial updates.** A Prisma update ignores `undefined` fields but writes any supplied value, including `""` (`Http.Patch`).
- **Errors thrown by the database.** Every controller wraps its work in `try/catch` and answers 500 itself. So an error thrown by the database reaches the client as 500 (`Reason.StorageFailure`), not through `errorHandler`.
  - The unique index on `email` can throw on a user update that supplies `email: ""`. The pre-check treats `""` as falsy and skips it, so the index decides (`RoundTrips.UpdateStorageFailureNeedsEmptyEmail`).
  - The repositories query with `findUnique` on `email` and on `userId`, so both columns are unique in the schema.
- **Deleting a referenced row.** Deleting a user who owns a store, or a store that has products, depends on the schema's foreign keys. The schema is not part of this model, so the referential action of each key is a parameter (`Database.Schema`). `storeOwner` covers a store's owner and `productStore` covers a product's store, and each is `Restrict` or `Cascade`:
  - `Restrict`: the database refuses the delete and the controller answers 500.
  - `Cascade`: the dependent rows are removed too.
  - When the owner key cascades, deleting a user also deletes the user's store. If the product key restricts and that store has products, the whole delete is refused (`RoundTrips.CascadeStopsAtStockedStore`).
  - The integrity results hold for all four combinations.

Three facts about the code shape the model:

- `src/app.js` imports the user validators, but no route in `src/routes/userRoutes.js` mounts them. The user controller therefore accepts, for example, a malformed e-mail (`Scenarios.MalformedEmailIsRegistered`), and the validators are modelled as standalone checks.
- A product price of 0 is falsy, so it gets the "required fields" 400. Only a negative price reaches the "price must be positive" 400.
- The controllers' own `catch` blocks answer 500 for every error the database throws. Only errors that escape a handler reach `errorHandler`: in practice, errors raised by the JSON body parser `express.json()`, such as `entity.parse.failed` (400) or `entity.too.large`, which has no code and gets 500.

## Model

| member | source | states |
|---|---|---|
| Js.Utf16Length | src/middlewares/validation.js:23-34 | a string's JavaScript length is between its character count and twice that, and equals the character count exactly when no character lies outside the Basic Multilingual Plane |
| Email.ShapeIsPattern | src/middlewares/validation.js:15-20 | the executable e-mail check accepts a string exactly when the regular expression matches it: no whitespace, exactly one '@' with something before it, and a '.' after the '@' with a character on each side |
| Validation.ValidateUserCreation | src/middlewares/validation.js:4-37 | creation rejects missing (undefined or "") fields first, then a malformed e-mail, then a password shorter than 6, then a name shorter than 2; each rejection happens exactly when its check is the first to fail, and `next()` happens exactly for a complete payload with a matching e-mail, password ≥ 6 and name ≥ 2 |
| Validation.ValidateUserUpdate | src/middlewares/validation.js:42-70 | update never demands presence; each rule fires only for a truthy field, in the order e-mail, password, name, and the first failing rule decides |
| Validation.FalsyUpdatePasses | src/middlewares/validation.js:46-69 | an update whose fields are all undefined or empty strings always passes |
| Validation.UpdateAgreesWithCreation | src/middlewares/validation.js:8-67 | on a payload with all three fields, the update check gives the same verdict as the creation check (same pattern, same thresholds 6 and 2, same order) |
| Validation.CreationAcceptedIsUpdateAccepted | src/middlewares/validation.js:22-69 | a payload creation accepts is accepted by update too |
| Database.Rows | src/models/ProductModel.js:20-28 | a listing contains only rows of the table, with their current values, strictly ascending by id, within the requested id range, and nothing for an empty table |
| Database.RowsComplete | src/models/UserModel.js:15-22 | no row of the table whose id lies in the requested range is missing from the listing |
| Database.Listing | src/models/StoreModel.js:18-26 | the whole-table listing is ascending by id and, when every id was issued by the sequence, contains every row |
| UserController.Create | src/controllers/UserController.js:8-33 | 400 exactly when name, e-mail or password is falsy; else 409 exactly when some user has that e-mail; else 201 with one new user under a fresh id carrying the given fields, every other user, store and product untouched; no failure changes the database |
| UserController.FindAll | src/controllers/UserController.js:36-44 | always 200; the users in ascending id order, and in a valid database every user appears |
| UserController.FindById | src/controllers/UserController.js:47-61 | 404 exactly when no user has the id, otherwise 200 with that user |
| UserController.Update | src/controllers/UserController.js:64-93 | 404 exactly for an unknown id, checked first; 409 exactly when a truthy e-mail differs from the user's own and belongs to a user; 500 exactly when the unique index refuses the written e-mail; otherwise 200 with only the supplied fields replaced and every other row untouched |
| UserController.Delete | src/controllers/UserController.js:96-111 | 404 exactly for an unknown id (never 500); 500 exactly when the user owns a store and either the owner key restricts, or it cascades while the product key restricts and that store has products; otherwise 204 and exactly that user is removed, together with the user's store and that store's products |
| StoreController.Create | src/controllers/StoreController.js:9-38 | 400 exactly when name or userId is falsy; else 404 exactly when the user does not exist; else 409 exactly when the user already owns a store; else 201 with one new store owned by that existing user; no failure changes the database |
| StoreController.FindAll | src/controllers/StoreController.js:41-49 | always 200; the stores in ascending id order, and in a valid database every store appears |
| StoreController.FindById | src/controllers/StoreController.js:52-66 | 404 exactly when no store has the id, otherwise 200 with that store |
| StoreController.Update | src/controllers/StoreController.js:69-86 | 404 exactly for an unknown id; otherwise 200, only the name may change and the owner is preserved |
| StoreController.Delete | src/controllers/StoreController.js:89-104 | 404 exactly for an unknown id; 500 exactly when the store has products and the product key restricts; otherwise 204 and exactly that store is removed (with its products when the schema cascades) |
| ProductController.Create | src/controllers/ProductController.js:9-39 | the "required fields" 400 exactly when name, price or storeId is falsy (so a price of 0 lands here); the "price must be positive" 400 exactly for a negative price; 404 exactly when the store does not exist; otherwise 201 with one new product of positive price in an existing store |
| ProductController.FindAll | src/controllers/ProductController.js:42-50 | always 200; the products in ascending id order, and in a valid database every product appears |
| ProductController.FindById | src/controllers/ProductController.js:53-67 | 404 exactly when no product has the id, otherwise 200 with that product |
| ProductController.FindByStore | src/controllers/ProductController.js:70-80 | never 404: always 200 with products of that store only, ascending by id, and in a valid database all of them |
| ProductController.Update | src/controllers/ProductController.js:83-107 | a supplied price ≤ 0 answers 400 before existence is checked; otherwise 404 exactly for an unknown id; otherwise 200 with name and price replaced only where supplied and the store unchanged |
| ProductController.Delete | src/controllers/ProductController.js:110-125 | 404 exactly for an unknown id; otherwise 204 and exactly that product is removed |
| ErrorHandler.Handle | src/middlewares/errorHandler.js:4-43 | 409 exactly for code P2002, 404 exactly for P2025, 400 exactly for P2003 or, with no code, a JSON parse failure, 500 for every other code and every other codeless error; a coded error is never classified as a parse failure; the error text is fixed by the same cases (duplicate data, broken reference, missing record, other database error, invalid JSON, server error) |
| ErrorHandler.CodeTakesPrecedence | src/middlewares/errorHandler.js:8-33 | an error carrying a code is classified the same whatever its parser type |
| ErrorHandler.NotFoundHandler | src/middlewares/errorHandler.js:48-52 | every unmatched request gets 404 and a message naming the method and then the path |
| Integrity.UserCreateKeepsValid | src/controllers/UserController.js:20-28 | user creation keeps e-mails unique and all the other rules |
| Integrity.UserUpdateKeepsValid | src/controllers/UserController.js:76-88 | user update keeps e-mails unique and all the other rules |
| Integrity.UserDeleteKeepsValid | src/controllers/UserController.js:100-106 | user deletion leaves no store without its owner, under every combination of referential actions |
| Integrity.StoreCreateKeepsValid | src/controllers/StoreController.js:21-33 | store creation keeps "every store has an existing owner" and "at most one store per user" |
| Integrity.StoreUpdateKeepsValid | src/controllers/StoreController.js:75-81 | store update keeps every rule |
| Integrity.StoreDeleteKeepsValid | src/controllers/StoreController.js:93-99 | store deletion leaves no product without its store, under either referential action |
| Integrity.ProductCreateKeepsValid | src/controllers/ProductController.js:21-34 | product creation keeps "every product in an existing store" and "prices positive" |
| Integrity.ProductUpdateKeepsValid | src/controllers/ProductController.js:89-102 | product update keeps prices positive and stores unchanged |
| Integrity.ProductDeleteKeepsValid | src/controllers/ProductController.js:114-120 | product deletion keeps every rule |
| Api.Serve | src/app.js:52-61 | every mounted route: reads never change the database, and a failed request leaves it unchanged and carries the reason that fixes its status |
| Api.ServeKeepsValid | src/app.js:52-61 | any single request keeps the data-model rules |
| Api.RunKeepsValid | src/app.js:52-61 | any sequence of requests served one after another from a valid database leaves a valid database |
| RoundTrips.CreatedUserIsFound | src/controllers/UserController.js:27-28 | a created user is immediately readable under its fresh id with the fields it was created with |
| RoundTrips.CreatedStoreIsFound | src/controllers/StoreController.js:32-33 | a created store is immediately readable under its fresh id |
| RoundTrips.CreatedProductIsFound | src/controllers/ProductController.js:33-34 | a created product is immediately readable under its fresh id |
| RoundTrips.SecondRegistrationConflicts | src/controllers/UserController.js:20-25 | registering the same e-mail again answers 409 |
| RoundTrips.SecondStoreConflicts | src/controllers/StoreController.js:27-30 | opening a second store for the same user answers 409 |
| RoundTrips.OwnEmailNeverConflicts | src/controllers/UserController.js:76-81 | re-submitting one's own e-mail never conflicts, and in a valid database the update succeeds |
| RoundTrips.UpdateStorageFailureNeedsEmptyEmail | src/controllers/UserController.js:76-91 | in a valid database the unique index can refuse a user update only when the supplied e-mail is "" |
| RoundTrips.UpdatedStoreKeepsOwner | src/controllers/StoreController.js:80-81 | after a store update, reading it shows the new name and the old owner |
| RoundTrips.UpdatedProductKeepsStore | src/controllers/ProductController.js:101-102 | after a product update, reading it shows the supplied name and price and the old store |
| RoundTrips.DeletedUserIsGone | src/controllers/UserController.js:105-106 | after a successful delete, reading the user answers 404 |
| RoundTrips.CascadeStopsAtStockedStore | src/controllers/UserController.js:105-109 | when the owner key cascades but the product key restricts, deleting a user whose store has products answers 500 and removes nothing |
| RoundTrips.DeletedStoreIsGone | src/controllers/StoreController.js:98-99 | after a successful delete, reading the store answers 404 |
| RoundTrips.DeletedProductIsGone | src/controllers/ProductController.js:119-120 | after a successful delete, reading the product answers 404 |
| RoundTrips.UnknownStoreListsNothing | src/controllers/ProductController.js:72-75 | in a valid database, listing the products of a store that does not exist answers 200 with an empty list |
| Scenarios.AnaOpensOneStore | src/controllers/StoreController.js:9-33 | from an empty database: registering Ana answers 201 with id 1, reading her back answers 200, her first store 201, a second store 409, its product list 200 and empty, a product priced -1 answers 400 |
| Scenarios.MalformedEmailIsRegistered | src/routes/userRoutes.js:11-12 | the creation middleware rejects "not-an-email" while the controller, which the route calls without it, registers it |

## Left out

- HTTP and Express plumbing (`src/app.js` wiring, `src/routes/*.js` tables, the healthcheck routes, `requestLogger`), the connection lifecycle in `src/config/database.js`, and the duplicate inline route set in `src/index.js`. The repositories in `src/models/*.js` become map lookups. Their `include`/`select` relation shapes and the response payload shapes are not modelled. A payload carries the row itself, password included, as the source does.
- Error texts: each message is a constructor of `Http.Reason`, `Validation.ValidationError` or `ErrorHandler.Handled`, not a string. The exception is the `notFoundHandler` message, which is modelled as text. The `P2002` message's list of offending columns (`error.meta.target`) is left out.
- `parseInt` of path ids and the resulting NaN → 500 path. Ids are `nat`. Body ids that are negative, non-numeric or strings are not modelled.
- JSON `null` and other non-string, non-number body values (for example, `price: null` passes `!== undefined`, and `null <= 0` holds). Body fields are either undefined or a value of the expected type. Prices are reals used only in comparisons with 0, and NaN is not modelled.
- Unexpected database failures: the model has no network errors or lost connections. The only 500s it produces are the schema constraints that can actually fire in a sequential run: the unique e-mail index, and foreign keys under `Restrict`.
- Concurrency: check-then-act races between simultaneous requests are not modelled. Requests are served one at a time.
- The Prisma schema itself is not part of this model. The referential action of each foreign key is therefore a parameter, not a fact. Only `Restrict` (which also stands for `NoAction`) and `Cascade` are modelled. `SetNull` is left out: `userId` and `storeId` are assumed to be required columns, since the schema is not shown. With an optional `userId` and `SetNull`, deleting a user would leave a store with no owner, which `Database.Valid` rules out.
- Lone UTF-16 surrogates: a JavaScript string, including a JSON-decoded one such as `"\ud800"`, may hold an unpaired surrogate. Such a unit counts 1 in `.length` and matches `[^\s@]`. Dafny's `char` excludes 0xD800-0xDFFF, so these strings cannot be written in the model. `Js.Utf16Length` and the e-mail check cover only well-formed strings.
- Creating the database: `Integrity.EmptyIsValid` proves that a database with no rows and every sequence at 1 satisfies every rule; no source line creates one.
- Auto-increment sequences that advance on failed inserts: in this model no insert fails after its pre-checks, so the counters move only on successful creates.

=== FILE: api.dfy ===
/** The HTTP surface the routers mount, as one request type and one dispatcher, and a
    sequential run of requests against the database. */
module Api {
  import opened Js
  import opened Database
  import opened Http
  import UserController
  import StoreController
  import ProductController
  import Integrity

  datatype Request =
    | CreateUser(userFields: UserFields)                           // POST   /usuarios
    | ListUsers                                                    // GET    /usuarios
    | GetUser(userId: Id)                                          // GET    /usuarios/:id
    | UpdateUser(userId: Id, userChanges: UserFields)              // PUT    /usuarios/:id
    | DeleteUser(userId: Id)                                       // DELETE /usuarios/:id
    | CreateStore(storeFields: StoreFields)                        // POST   /stores
    | ListStores                                                   // GET    /stores
    | GetStore(storeId: Id)                                        // GET    /stores/:id
    | UpdateStore(storeId: Id, storeChanges: StoreChanges)         // PUT    /stores/:id
    | DeleteStore(storeId: Id)                                     // DELETE /stores/:id
    | CreateProduct(productFields: ProductFields)                  // POST   /products
    | ListProducts                                                 // GET    /products
    | GetProduct(productId: Id)                                    // GET    /products/:id
    | ListStoreProducts(storeId: Id)                               // GET    /stores/:storeId/products
    | UpdateProduct(productId: Id, productChanges: ProductChanges) // PUT    /products/:id
    | DeleteProduct(productId: Id)                                 // DELETE /products/:id

  predicate IsRead(req: Request) {
    req.ListUsers? || req.GetUser? || req.ListStores? || req.GetStore?
    || req.ListProducts? || req.GetProduct? || req.ListStoreProducts?
  }

  /** One request through its controller. Reads never change the database, no failed
      request changes it, and every error status comes with the reason behind it. */
  function Serve(db: Db, schema: Schema, req: Request): (o: Outcome)
    ensures IsRead(req) ==> o.db == db && o.reply.status in {Ok, NotFound}
    ensures !Succeeded(o.reply) ==> o.db == db && o.reply.payload.Problem? && o.reply == Fail(o.reply.payload.reason)
  {
    match req
    case CreateUser(body) => UserController.Create(db, body)
    case ListUsers => Outcome(UserController.FindAll(db), db)
    case GetUser(id) => Outcome(UserController.FindById(db, id), db)
    case UpdateUser(id, body) => UserController.Update(db, id, body)
    case DeleteUser(id) => UserController.Delete(db, id, schema)
    case CreateStore(body) => StoreController.Create(db, body)
    case ListStores => Outcome(StoreController.FindAll(db), db)
    case GetStore(id) => Outcome(StoreController.FindById(db, id), db)
    case UpdateStore(id, body) => StoreController.Update(db, id, body)
    case DeleteStore(id) => StoreController.Delete(db, id, schema)
    case CreateProduct(body) => ProductController.Create(db, body)
    case ListProducts => Outcome(ProductController.FindAll(db), db)
    case GetProduct(id) => Outcome(ProductController.FindById(db, id), db)
    case ListStoreProducts(id) => Outcome(ProductController.FindByStore(db, id), db)
    case UpdateProduct(id, body) => ProductController.Update(db, id, body)
    case DeleteProduct(id) => ProductController.Delete(db, id)
  }

  /** The database after serving `reqs` one after another. */
  function Run(db: Db, schema: Schema, reqs: seq<Request>): Db
    decreases |reqs|
  {
    if reqs == [] then db
    else Run(Serve(db, schema, reqs[0]).db, schema, reqs[1..])
  }

  /** Every single request keeps the data-model rules. */
  lemma ServeKeepsValid(db: Db, schema: Schema, req: Request)
    requires Valid(db)
    ensures Valid(Serve(db, schema, req).db)
  {
    match req
    case CreateUser(body) => Integrity.UserCreateKeepsValid(db, body);
    case UpdateUser(id, body) => Integrity.UserUpdateKeepsValid(db, id, body);
    case DeleteUser(id) => Integrity.UserDeleteKeepsValid(db, id, schema);
    case CreateStore(body) => Integrity.StoreCreateKeepsValid(db, body);
    case UpdateStore(id, body) => Integrity.StoreUpdateKeepsValid(db, id, body);
    case DeleteStore(id) => Integrity.StoreDeleteKeepsValid(db, id, schema);
    case CreateProduct(body) => Integrity.ProductCreateKeepsValid(db, body);
    case UpdateProduct(id, body) => Integrity.ProductUpdateKeepsValid(db, id, body);
    case DeleteProduct(id) => Integrity.ProductDeleteKeepsValid(db, id);
    case _ =>
  }

  /** Any sequence of requests, served one at a time from a valid database (in particular
      from `Empty`), leaves a valid database: e-mails stay unique, no user owns two stores,
      every store has an owner and every product a store and a positive price. */
  lemma {:induction false} RunKeepsValid(db: Db, schema: Schema, reqs: seq<Request>)
    requires Valid(db)
    ensures Valid(Run(db, schema, reqs))
    decreases |reqs|
  {
    if reqs != [] {
      ServeKeepsValid(db, schema, reqs[0]);
      RunKeepsValid(Serve(db, schema, reqs[0]).db, schema, reqs[1..]);
    }
  }
}

=== FILE: database.dfy ===
/** The relational store behind the repositories, abstracted as three tables keyed by
    auto-incremented id, the lookups the repositories issue against them, and the
    integrity rules the schema and the controllers keep between them. */
module Database {

  /** Row identifiers; the database assigns them from 1 upwards and never reuses one. */
  type Id = nat

  datatype User = User(name: string, email: string, password: string)
  datatype Store = Store(name: string, userId: Id)
  datatype Product = Product(name: string, price: real, storeId: Id)

  /** The three tables and the next value of each table's id sequence. */
  datatype Db = Db(
    users: map<Id, User>,
    stores: map<Id, Store>,
    products: map<Id, Product>,
    nextUserId: Id,
    nextStoreId: Id,
    nextProductId: Id)

  /** What deleting a referenced row does: the schema either refuses it (the database
      raises a foreign-key error) or removes the dependent rows with it. */
  datatype OnDelete = Restrict | Cascade

  /** The referential action of each foreign key, chosen by the schema independently:
      `storeOwner` for a store's owner (`Store.user`), `productStore` for a product's
      store (`Product.store`). */
  datatype Schema = Schema(storeOwner: OnDelete, productStore: OnDelete)

  /** A freshly migrated database: no rows, every sequence at 1. */
  const Empty: Db := Db(map[], map[], map[], 1, 1, 1)

  /** `findUnique({ where: { email } })` finds a row. */
  predicate EmailTaken(users: map<Id, User>, email: string) {
    exists id | id in users :: users[id].email == email
  }

  /** `findUnique({ where: { userId } })` finds a row. */
  predicate OwnsStore(stores: map<Id, Store>, userId: Id) {
    exists id | id in stores :: stores[id].userId == userId
  }

  /** A user other than `id` already holds `email`: the unique index on e-mail refuses
      to give it to `id` as well. */
  predicate EmailHeldByOther(users: map<Id, User>, id: Id, email: string) {
    exists k | k in users :: k != id && users[k].email == email
  }

  /** Some product row points at the store. */
  predicate Stocks(products: map<Id, Product>, storeId: Id) {
    exists id | id in products :: products[id].storeId == storeId
  }

  /** Some store owned by `userId` has a product row pointing at it. */
  predicate OwnedStoreStocked(stores: map<Id, Store>, products: map<Id, Product>, userId: Id) {
    exists s | s in stores :: stores[s].userId == userId && Stocks(products, s)
  }

  // ----- integrity rules -----

  /** Every key was handed out by the table's sequence, which starts at 1. */
  ghost predicate IdsIssued<V>(m: map<Id, V>, next: Id) {
    1 <= next && forall id | id in m :: 1 <= id < next
  }

  ghost predicate EmailsUnique(users: map<Id, User>) {
    forall a, b | a in users && b in users && a != b :: users[a].email != users[b].email
  }

  ghost predicate StoresOwned(db: Db) {
    forall s | s in db.stores :: db.stores[s].userId in db.users
  }

  ghost predicate OneStorePerUser(stores: map<Id, Store>) {
    forall a, b | a in stores && b in stores && a != b :: stores[a].userId != stores[b].userId
  }

  ghost predicate ProductsStocked(db: Db) {
    forall p | p in db.products :: db.products[p].storeId in db.stores
  }

  ghost predicate PricesPositive(products: map<Id, Product>) {
    forall p | p in products :: products[p].price > 0.0
  }

  /** The rules of the data model: issued ids, unique e-mails, every store owned by an
      existing user and at most one per user, every product in an existing store with a
      positive price. */
  ghost predicate Valid(db: Db) {
    && IdsIssued(db.users, db.nextUserId)
    && IdsIssued(db.stores, db.nextStoreId)
    && IdsIssued(db.products, db.nextProductId)
    && EmailsUnique(db.users)
    && StoresOwned(db)
    && OneStorePerUser(db.stores)
    && ProductsStocked(db)
    && PricesPositive(db.products)
  }

  // ----- listings -----

  /** A listing shows rows of `m`, each with its current value, in strictly ascending id order. */
  ghost predicate AscendingRowsOf<V>(rows: seq<(Id, V)>, m: map<Id, V>) {
    && (forall i | 0 <= i < |rows| :: rows[i].0 in m && m[rows[i].0] == rows[i].1)
    && (forall i, j | 0 <= i < j < |rows| :: rows[i].0 < rows[j].0)
  }

  /** The rows of `m` whose ids lie in `[lo, hi)`, ordered by id ascending
      (`orderBy: { id: "asc" }`). */
  function Rows<V>(m: map<Id, V>, lo: Id, hi: Id): (rows: seq<(Id, V)>)
    ensures AscendingRowsOf(rows, m)
    ensures forall i | 0 <= i < |rows| :: lo <= rows[i].0 < hi
    ensures m == map[] ==> rows == []
    decreases if lo < hi then hi - lo else 0
  {
    if hi <= lo then []
    else if lo in m then
      var rest := Rows(m, lo + 1, hi);
      [(lo, m[lo])] + rest
    else Rows(m, lo + 1, hi)
  }

  /** No row of `m` in `[lo, hi)` is missing from `Rows(m, lo, hi)`. */
  lemma {:induction false} RowsComplete<V>(m: map<Id, V>, lo: Id, hi: Id, id: Id)
    requires id in m && lo <= id < hi
    ensures exists i | 0 <= i < |Rows(m, lo, hi)| :: Rows(m, lo, hi)[i].0 == id
    decreases hi - lo
  {
    var rows := Rows(m, lo, hi);
    if id == lo {
      assert rows[0].0 == id;
    } else {
      RowsComplete(m, lo + 1, hi, id);
      var rest := Rows(m, lo + 1, hi);
      var i :| 0 <= i < |rest| && rest[i].0 == id;
      if lo in m {
        assert rows[i + 1] == rest[i];
      } else {
        assert rows[i] == rest[i];
      }
    }
  }

  /** The whole table in id order (`findMany` with `orderBy: { id: "asc" }`). */
  function Listing<V>(m: map<Id, V>, next: Id): (rows: seq<(Id, V)>)
    ensures AscendingRowsOf(rows, m)
    ensures IdsIssued(m, next) ==> forall id | id in m :: exists i | 0 <= i < |rows| :: rows[i].0 == id
    ensures m == map[] ==> rows == []
  {
    var rows := Rows(m, 0, next);
    assert IdsIssued(m, next) ==> forall id | id in m :: exists i | 0 <= i < |rows| :: rows[i].0 == id by {
      if IdsIssued(m, next) {
        forall id | id in m
          ensures exists i | 0 <= i < |rows| :: rows[i].0 == id
        {
          RowsComplete(m, 0, next, id);
        }
      }
    }
    rows
  }

  /** The product rows that point at `storeId` (`where: { storeId }`). */
  function ProductsOf(products: map<Id, Product>, storeId: Id): (m: map<Id, Product>)
    ensures forall id :: id in m <==> id in products && products[id].storeId == storeId
    ensures forall id | id in m :: m[id] == products[id]
  {
    map id | id in products && products[id].storeId == storeId :: products[id]
  }
}

=== FILE: email.dfy ===
/** The e-mail shape check used by both user validators: the pattern
    `^[^\s@]+@[^\s@]+\.[^\s@]+$`, given once as the regular expression reads and once as
    an executable scan, with a proof that the two agree on every string. */
module Email {
  import opened Js

  /** `[^\s@]`: any character that is neither whitespace nor '@'. */
  predicate InClass(c: char) {
    c != '@' && !IsWhitespace(c)
  }

  predicate AllInClass(s: string) {
    forall i | 0 <= i < |s| :: InClass(s[i])
  }

  /** The regular expression read literally: a non-empty run of class characters, '@',
      a non-empty run, a literal '.', a non-empty run, and nothing else. `at` and `dot`
      are the positions of the two separators the match uses. */
  ghost predicate MatchesPattern(s: string) {
    exists at, dot | 0 < at && at + 1 < dot && dot + 1 < |s| ::
      && s[at] == '@' && s[dot] == '.'
      && AllInClass(s[..at]) && AllInClass(s[at + 1..dot]) && AllInClass(s[dot + 1..])
  }

  /** Executable form: no whitespace anywhere, exactly one '@' and not in front, and a
      '.' after the '@' with at least one character on each side of it. */
  predicate IsEmailShaped(s: string) {
    && (forall i | 0 <= i < |s| :: !IsWhitespace(s[i]))
    && var at := IndexOf(s, '@', 0);
       && 0 < at < |s|
       && IndexOf(s, '@', at + 1) == |s|
       && exists dot | at + 1 < dot < |s| - 1 :: s[dot] == '.'
  }

  /** The scan accepts exactly the strings the regular expression matches. */
  lemma ShapeIsPattern(s: string)
    ensures IsEmailShaped(s) <==> MatchesPattern(s)
  {
  }
}

=== FILE: error_handler.dfy ===
/** The application-level error middlewares: `errorHandler` classifies whatever reached
    `next(error)` by its database error code or its parser type, and `notFoundHandler`
    answers every request no route matched. */
module ErrorHandler {
  import opened Js
  import opened Http

  /** The two properties of a thrown error the handler inspects: `error.code` (set by the
      database client, e.g. "P2002") and `error.type` (set by the JSON body parser). */
  datatype Thrown = Thrown(code: Field<string>, kind: Field<string>)

  /** The `error` text the handler answers with. */
  datatype Handled =
    | DuplicateData     // unique constraint failed (P2002)
    | BrokenReference   // foreign key constraint failed (P2003)
    | RecordMissing     // record required by the operation not found (P2025)
    | DatabaseError     // any other database error code
    | InvalidJson       // the request body is not valid JSON
    | ServerError       // anything else

  datatype Handling = Handling(status: Status, handled: Handled)

  const UniqueViolation := "P2002"
  const ForeignKeyViolation := "P2003"
  const RecordNotFound := "P2025"
  const ParseFailed := "entity.parse.failed"

  /** `errorHandler`: a truthy code decides alone; only without one is the parser type
      consulted. Every status the handler can produce is characterised by the error that
      leads to it. */
  function Handle(e: Thrown): (h: Handling)
    ensures h.status in {Conflict, BadRequest, NotFound, InternalError}
    ensures h.status == Conflict <==> e.code == Present("P2002")
    ensures h.status == NotFound <==> e.code == Present("P2025")
    ensures h.status == BadRequest <==>
      e.code == Present("P2003") || (!TruthyText(e.code) && e.kind == Present("entity.parse.failed"))
    ensures h.status == InternalError <==>
      if TruthyText(e.code) then e.code.value !in {"P2002", "P2003", "P2025"}
      else e.kind != Present("entity.parse.failed")
    ensures h.handled == DuplicateData <==> e.code == Present("P2002")
    ensures h.handled == BrokenReference <==> e.code == Present("P2003")
    ensures h.handled == RecordMissing <==> e.code == Present("P2025")
    ensures h.handled == DatabaseError <==> TruthyText(e.code) && e.code.value !in {"P2002", "P2003", "P2025"}
    ensures h.handled == InvalidJson <==> !TruthyText(e.code) && e.kind == Present("entity.parse.failed")
    ensures h.handled == ServerError <==> !TruthyText(e.code) && e.kind != Present("entity.parse.failed")
  {
    if TruthyText(e.code) then
      if e.code.value == UniqueViolation then Handling(Conflict, DuplicateData)
      else if e.code.value == ForeignKeyViolation then Handling(BadRequest, BrokenReference)
      else if e.code.value == RecordNotFound then Handling(NotFound, RecordMissing)
      else Handling(InternalError, DatabaseError)
    else if e.kind == Present(ParseFailed) then Handling(BadRequest, InvalidJson)
    else Handling(InternalError, ServerError)
  }

  /** An error that carries a code is classified by that code whatever its type says. */
  lemma CodeTakesPrecedence(e: Thrown, kind: Field<string>)
    requires TruthyText(e.code)
    ensures Handle(e) == Handle(e.(kind := kind))
  {
  }

  /** The `error` text of `notFoundHandler`: "Rota <verb> <path> não encontrada". */
  function RouteMessage(verb: string, path: string): string {
    "Rota " + verb + " " + path + " não encontrada"
  }

  datatype RouteMiss = RouteMiss(status: Status, message: string)

  /** `notFoundHandler`: every unmatched request gets 404, and the message names the
      method and the path, in that order. */
  function NotFoundHandler(verb: string, path: string): (r: RouteMiss)
    ensures r.status == NotFound && Code(r.status) == 404
    ensures |r.message| > 6 + |verb| + |path|
    ensures r.message[5..5 + |verb|] == verb
    ensures r.message[6 + |verb|..6 + |verb| + |path|] == path
  {
    RouteMiss(NotFound, RouteMessage(verb, path))
  }
}

=== FILE: http.dfy ===
/** What the controllers receive and answer: request bodies, HTTP statuses, the failure
    reasons behind each error response and the rows a success response carries. */
module Http {
  import opened Js
  import opened Database

  datatype Status = Ok | Created | NoContent | BadRequest | NotFound | Conflict | InternalError

  /** The numeric status code written on the wire. */
  function Code(s: Status): nat {
    match s
    case Ok => 200
    case Created => 201
    case NoContent => 204
    case BadRequest => 400
    case NotFound => 404
    case Conflict => 409
    case InternalError => 500
  }

  /** Why a controller answered with an error; each one stands for the `error` text the
      controller sends. */
  datatype Reason =
    | UserFieldsRequired        // name, e-mail and password are required
    | EmailAlreadyRegistered    // the e-mail is already registered
    | UserNotFound              // no user with that id
    | StoreFieldsRequired       // store name and user id are required
    | UserAlreadyHasStore       // the user already owns a store
    | StoreNotFound             // no store with that id
    | ProductFieldsRequired     // name, price and store id are required
    | PriceNotPositive          // the price must be greater than zero
    | ProductNotFound           // no product with that id
    | StorageFailure            // the database threw; the catch block answers 500

  function StatusOf(r: Reason): Status {
    match r
    case UserFieldsRequired | StoreFieldsRequired | ProductFieldsRequired | PriceNotPositive => BadRequest
    case UserNotFound | StoreNotFound | ProductNotFound => NotFound
    case EmailAlreadyRegistered | UserAlreadyHasStore => Conflict
    case StorageFailure => InternalError
  }

  datatype Payload =
    | NoBody
    | Problem(reason: Reason)
    | UserRow(userId: Id, user: User)
    | StoreRow(storeId: Id, store: Store)
    | ProductRow(productId: Id, product: Product)
    | UserRows(userRows: seq<(Id, User)>)
    | StoreRows(storeRows: seq<(Id, Store)>)
    | ProductRows(productRows: seq<(Id, Product)>)

  datatype Reply = Reply(status: Status, payload: Payload)

  /** The error response for `reason`. */
  function Fail(reason: Reason): Reply {
    Reply(StatusOf(reason), Problem(reason))
  }

  /** A controller's answer together with the database it leaves behind. */
  datatype Outcome = Outcome(reply: Reply, db: Db)

  /** A response is a success exactly when its status is 2xx. */
  predicate Succeeded(r: Reply) {
    r.status in {Ok, Created, NoContent}
  }

  // ----- request bodies -----

  /** `{ name, email, password }` of POST and PUT /usuarios. */
  datatype UserFields = UserFields(name: Field<string>, email: Field<string>, password: Field<string>)

  /** `{ name, userId }` of POST /stores. */
  datatype StoreFields = StoreFields(name: Field<string>, userId: Field<Id>)

  /** `{ name }` of PUT /stores/:id. */
  datatype StoreChanges = StoreChanges(name: Field<string>)

  /** `{ name, price, storeId }` of POST /products. */
  datatype ProductFields = ProductFields(name: Field<string>, price: Field<real>, storeId: Field<Id>)

  /** `{ name, price }` of PUT /products/:id. */
  datatype ProductChanges = ProductChanges(name: Field<string>, price: Field<real>)

  /** `name && email && password`. */
  predicate HasUserFields(body: UserFields) {
    TruthyText(body.name) && TruthyText(body.email) && TruthyText(body.password)
  }

  /** A partial update as the database applies it: an undefined field leaves the column
      alone, a supplied one (even "") overwrites it. */
  function Patch<T>(current: T, supplied: Field<T>): T {
    if supplied.Present? then supplied.value else current
  }
}

=== FILE: integrity.dfy ===
/** The data-model rules hold in a fresh database and every controller operation keeps
    them, whatever the request; together with the checks' order this is what the pre-checks
    in the controllers buy. */
module Integrity {
  import opened Js
  import opened Database
  import opened Http
  import UserController
  import StoreController
  import ProductController

  lemma EmptyIsValid()
    ensures Valid(Empty)
  {
  }

  // ----- users -----

  lemma UserCreateKeepsValid(db: Db, body: UserFields)
    requires Valid(db)
    ensures Valid(UserController.Create(db, body).db)
  {
  }

  lemma UserUpdateKeepsValid(db: Db, id: Id, body: UserFields)
    requires Valid(db)
    ensures Valid(UserController.Update(db, id, body).db)
  {
  }

  lemma UserDeleteKeepsValid(db: Db, id: Id, schema: Schema)
    requires Valid(db)
    ensures Valid(UserController.Delete(db, id, schema).db)
  {
  }

  // ----- stores -----

  lemma StoreCreateKeepsValid(db: Db, body: StoreFields)
    requires Valid(db)
    ensures Valid(StoreController.Create(db, body).db)
  {
  }

  lemma StoreUpdateKeepsValid(db: Db, id: Id, body: StoreChanges)
    requires Valid(db)
    ensures Valid(StoreController.Update(db, id, body).db)
  {
  }

  lemma StoreDeleteKeepsValid(db: Db, id: Id, schema: Schema)
    requires Valid(db)
    ensures Valid(StoreController.Delete(db, id, schema).db)
  {
  }

  // ----- products -----

  lemma ProductCreateKeepsValid(db: Db, body: ProductFields)
    requires Valid(db)
    ensures Valid(ProductController.Create(db, body).db)
  {
  }

  lemma ProductUpdateKeepsValid(db: Db, id: Id, body: ProductChanges)
    requires Valid(db)
    ensures Valid(ProductController.Update(db, id, body).db)
  {
  }

  lemma ProductDeleteKeepsValid(db: Db, id: Id)
    requires Valid(db)
    ensures Valid(ProductController.Delete(db, id).db)
  {
  }
}

=== FILE: js.dfy ===
/** JavaScript semantics the controllers and validators lean on: `undefined` versus a
    supplied body field, truthiness, the `\s` character class and `String.prototype.length`
    (UTF-16 code units); plus `IndexOf`, a first-occurrence search the executable e-mail
    scan uses in place of the regular-expression engine. */
module Js {

  /** A field of a JSON request body: `Absent` is `undefined` (the client did not send it). */
  datatype Field<+T> = Absent | Present(value: T)

  /** `!!s` for a string field: undefined and "" are falsy. */
  predicate TruthyText(f: Field<string>) {
    f.Present? && f.value != ""
  }

  /** `!!n` for an integer id field: undefined and 0 are falsy. */
  predicate TruthyId(f: Field<nat>) {
    f.Present? && f.value != 0
  }

  /** `!!x` for a numeric field: undefined and 0 are falsy (NaN is not modelled). */
  predicate TruthyNumber(f: Field<real>) {
    f.Present? && f.value != 0.0
  }

  /** The ECMAScript `\s` class: WhiteSpace plus LineTerminator code points. */
  predicate IsWhitespace(c: char) {
    var n := c as int;
    || 0x09 <= n <= 0x0D   // tab, line feed, vertical tab, form feed, carriage return
    || n == 0x20 || n == 0xA0 || n == 0x1680
    || 0x2000 <= n <= 0x200A
    || n == 0x2028 || n == 0x2029 || n == 0x202F || n == 0x205F
    || n == 0x3000 || n == 0xFEFF
  }

  /** Number of UTF-16 code units one character occupies. */
  function CodeUnits(c: char): nat {
    if c as int <= 0xFFFF then 1 else 2
  }

  /** `s.length` in JavaScript: characters outside the Basic Multilingual Plane count twice. */
  function Utf16Length(s: string): (n: nat)
    ensures |s| <= n <= 2 * |s|
    ensures n == |s| <==> forall i | 0 <= i < |s| :: s[i] as int <= 0xFFFF
  {
    if s == [] then 0
    else
      var n := CodeUnits(s[0]) + Utf16Length(s[1..]);
      assert forall i | 1 <= i < |s| :: s[i] == s[1..][i - 1];
      n
  }

  /** `s.indexOf(c, from)`, answering `|s|` instead of -1 when `c` does not occur. */
  function IndexOf(s: string, c: char, from: nat): (k: nat)
    requires from <= |s|
    ensures from <= k <= |s|
    ensures k < |s| ==> s[k] == c
    ensures forall i | from <= i < k :: s[i] != c
    decreases |s| - from
  {
    if from == |s| then from
    else if s[from] == c then from
    else IndexOf(s, c, from + 1)
  }
}

=== FILE: product_controller.dfy ===
/** `ProductController`: the /products operations (and GET /stores/:storeId/products) as
    transitions of the abstract database. */
module ProductController {
  import opened Js
  import opened Database
  import opened Http

  /** `name && price && storeId`: a price of 0 counts as missing. */
  predicate HasProductFields(body: ProductFields) {
    TruthyText(body.name) && TruthyNumber(body.price) && TruthyId(body.storeId)
  }

  /** POST /products: presence of the three fields, then a positive price, then the store
      exists; only then insert under the next id. */
  function Create(db: Db, body: ProductFields): (o: Outcome)
    ensures o.reply.status in {Created, BadRequest, NotFound}
    ensures o.reply == Fail(ProductFieldsRequired) <==> !HasProductFields(body)
    ensures o.reply == Fail(PriceNotPositive) <==> HasProductFields(body) && body.price.value < 0.0
    ensures o.reply == Fail(StoreNotFound) <==>
      HasProductFields(body) && body.price.value > 0.0 && body.storeId.value !in db.stores
    ensures Succeeded(o.reply) <==>
      HasProductFields(body) && body.price.value > 0.0 && body.storeId.value in db.stores
    ensures !Succeeded(o.reply) ==> o.db == db
    ensures Succeeded(o.reply) ==>
      var id := db.nextProductId;
      var product := Product(body.name.value, body.price.value, body.storeId.value);
      && product.price > 0.0
      && product.storeId in db.stores
      && o.reply.payload == ProductRow(id, product)
      && o.db.products.Keys == db.products.Keys + {id}
      && o.db.products[id] == product
      && (forall k | k in db.products && k != id :: o.db.products[k] == db.products[k])
      && o.db.users == db.users && o.db.stores == db.stores
      && o.db.nextProductId > id
      && o.db.nextUserId == db.nextUserId && o.db.nextStoreId == db.nextStoreId
  {
    if !HasProductFields(body) then Outcome(Fail(ProductFieldsRequired), db)
    else if body.price.value <= 0.0 then Outcome(Fail(PriceNotPositive), db)
    else if body.storeId.value !in db.stores then Outcome(Fail(StoreNotFound), db)
    else
      var id := db.nextProductId;
      var product := Product(body.name.value, body.price.value, body.storeId.value);
      Outcome(Reply(Created, ProductRow(id, product)),
              db.(products := db.products[id := product], nextProductId := id + 1))
  }

  /** GET /products: every product, in id order. */
  function FindAll(db: Db): (r: Reply)
    ensures r.status == Ok && r.payload.ProductRows?
    ensures AscendingRowsOf(r.payload.productRows, db.products)
    ensures Valid(db) ==>
      forall id | id in db.products :: exists i | 0 <= i < |r.payload.productRows| :: r.payload.productRows[i].0 == id
  {
    Reply(Ok, ProductRows(Listing(db.products, db.nextProductId)))
  }

  /** GET /products/:id */
  function FindById(db: Db, id: Id): (r: Reply)
    ensures r.status in {Ok, NotFound}
    ensures r == Fail(ProductNotFound) <==> id !in db.products
    ensures r.status == Ok <==> id in db.products
    ensures r.status == Ok ==> r.payload == ProductRow(id, db.products[id])
  {
    if id !in db.products then Fail(ProductNotFound)
    else Reply(Ok, ProductRow(id, db.products[id]))
  }

  /** GET /stores/:storeId/products: the products of that store in id order. The store
      itself is never looked up, so an unknown store yields an empty list, not 404. */
  function FindByStore(db: Db, storeId: Id): (r: Reply)
    ensures r.status == Ok && r.payload.ProductRows?
    ensures forall i | 0 <= i < |r.payload.productRows| :: r.payload.productRows[i].1.storeId == storeId
    ensures AscendingRowsOf(r.payload.productRows, db.products)
    ensures Valid(db) ==>
      forall id | id in db.products && db.products[id].storeId == storeId ::
        exists i | 0 <= i < |r.payload.productRows| :: r.payload.productRows[i].0 == id
  {
    var own := ProductsOf(db.products, storeId);
    var rows := Listing(own, db.nextProductId);
    assert IdsIssued(db.products, db.nextProductId) ==> IdsIssued(own, db.nextProductId);
    Reply(Ok, ProductRows(rows))
  }

  /** PUT /products/:id: a supplied price must be positive (checked before existence),
      then the product must exist; name and price are written, the store never changes. */
  function Update(db: Db, id: Id, body: ProductChanges): (o: Outcome)
    ensures o.reply.status in {Ok, BadRequest, NotFound}
    ensures o.reply == Fail(PriceNotPositive) <==> body.price.Present? && body.price.value <= 0.0
    ensures o.reply == Fail(ProductNotFound) <==>
      !(body.price.Present? && body.price.value <= 0.0) && id !in db.products
    ensures Succeeded(o.reply) <==>
      !(body.price.Present? && body.price.value <= 0.0) && id in db.products
    ensures !Succeeded(o.reply) ==> o.db == db
    ensures Succeeded(o.reply) ==>
      && o.db.products.Keys == db.products.Keys
      && o.reply.payload == ProductRow(id, o.db.products[id])
      && o.db.products[id].name == Patch(db.products[id].name, body.name)
      && o.db.products[id].price == Patch(db.products[id].price, body.price)
      && o.db.products[id].storeId == db.products[id].storeId
      && (forall k | k in db.products && k != id :: o.db.products[k] == db.products[k])
      && o.db.users == db.users && o.db.stores == db.stores
      && o.db.nextProductId == db.nextProductId
      && o.db.nextUserId == db.nextUserId && o.db.nextStoreId == db.nextStoreId
  {
    if body.price.Present? && body.price.value <= 0.0 then Outcome(Fail(PriceNotPositive), db)
    else if id !in db.products then Outcome(Fail(ProductNotFound), db)
    else
      var current := db.products[id];
      var updated := current.(name := Patch(current.name, body.name), price := Patch(current.price, body.price));
      Outcome(Reply(Ok, ProductRow(id, updated)), db.(products := db.products[id := updated]))
  }

  /** DELETE /products/:id: existence, then the delete; nothing refers to a product. */
  function Delete(db: Db, id: Id): (o: Outcome)
    ensures o.reply.status in {NoContent, NotFound}
    ensures o.reply == Fail(ProductNotFound) <==> id !in db.products
    ensures Succeeded(o.reply) <==> id in db.products
    ensures !Succeeded(o.reply) ==> o.db == db
    ensures Succeeded(o.reply) ==>
      && o.reply.payload == NoBody
      && o.db.products.Keys == db.products.Keys - {id}
      && (forall k | k in o.db.products :: o.db.products[k] == db.products[k])
      && o.db.users == db.users && o.db.stores == db.stores
      && o.db.nextProductId == db.nextProductId
      && o.db.nextUserId == db.nextUserId && o.db.nextStoreId == db.nextStoreId
  {
    if id !in db.products then Outcome(Fail(ProductNotFound), db)
    else Outcome(Reply(NoContent, NoBody), db.(products := db.products - {id}))
  }
}

=== FILE: round_trips.dfy ===
/** Properties that relate several operations: what a successful write makes visible to
    the reads that follow it, and how the uniqueness checks answer a repeated request. */
module RoundTrips {
  import opened Js
  import opened Database
  import opened Http
  import UserController
  import StoreController
  import ProductController

  // ----- a created row is retrievable at once under its new id -----

  lemma CreatedUserIsFound(db: Db, body: UserFields)
    requires Valid(db)
    requires UserController.Create(db, body).reply.status == Created
    ensures var after := UserController.Create(db, body).db;
      && db.nextUserId !in db.users
      && UserController.FindById(after, db.nextUserId)
         == Reply(Ok, UserRow(db.nextUserId, User(body.name.value, body.email.value, body.password.value)))
  {
  }

  lemma CreatedStoreIsFound(db: Db, body: StoreFields)
    requires Valid(db)
    requires StoreController.Create(db, body).reply.status == Created
    ensures var after := StoreController.Create(db, body).db;
      && db.nextStoreId !in db.stores
      && StoreController.FindById(after, db.nextStoreId)
         == Reply(Ok, StoreRow(db.nextStoreId, Store(body.name.value, body.userId.value)))
  {
  }

  lemma CreatedProductIsFound(db: Db, body: ProductFields)
    requires Valid(db)
    requires ProductController.Create(db, body).reply.status == Created
    ensures var after := ProductController.Create(db, body).db;
      && db.nextProductId !in db.products
      && ProductController.FindById(after, db.nextProductId)
         == Reply(Ok, ProductRow(db.nextProductId, Product(body.name.value, body.price.value, body.storeId.value)))
  {
  }

  // ----- a repeated create meets the uniqueness checks -----

  /** Registering the same e-mail twice: the second request answers 409. */
  lemma SecondRegistrationConflicts(db: Db, first: UserFields, second: UserFields)
    requires UserController.Create(db, first).reply.status == Created
    requires HasUserFields(second) && second.email == first.email
    ensures UserController.Create(UserController.Create(db, first).db, second).reply
            == Fail(EmailAlreadyRegistered)
  {
    var after := UserController.Create(db, first).db;
    assert after.users[db.nextUserId].email == second.email.value;
  }

  /** Opening a second store for the same user: the second request answers 409. */
  lemma SecondStoreConflicts(db: Db, first: StoreFields, second: StoreFields)
    requires StoreController.Create(db, first).reply.status == Created
    requires TruthyText(second.name) && second.userId == first.userId
    ensures StoreController.Create(StoreController.Create(db, first).db, second).reply
            == Fail(UserAlreadyHasStore)
  {
    var after := StoreController.Create(db, first).db;
    assert after.stores[db.nextStoreId].userId == second.userId.value;
  }

  // ----- updates -----

  /** Re-submitting one's own e-mail never conflicts; in a valid database the update
      then goes through. */
  lemma OwnEmailNeverConflicts(db: Db, id: Id, body: UserFields)
    requires Valid(db) && id in db.users
    requires body.email == Present(db.users[id].email)
    ensures UserController.Update(db, id, body).reply.status == Ok
  {
  }

  /** In a valid database the unique index can only refuse an update whose e-mail is the
      empty string: the only e-mail the pre-check lets through unexamined. */
  lemma UpdateStorageFailureNeedsEmptyEmail(db: Db, id: Id, body: UserFields)
    requires Valid(db)
    requires UserController.Update(db, id, body).reply == Fail(StorageFailure)
    ensures body.email == Present("")
  {
  }

  /** A store update is visible to the next read, and the store keeps its owner. */
  lemma UpdatedStoreKeepsOwner(db: Db, id: Id, body: StoreChanges)
    requires StoreController.Update(db, id, body).reply.status == Ok
    ensures var r := StoreController.FindById(StoreController.Update(db, id, body).db, id);
      && r.status == Ok
      && r.payload.store.name == Patch(db.stores[id].name, body.name)
      && r.payload.store.userId == db.stores[id].userId
  {
  }

  /** A product update is visible to the next read, and the product stays in its store. */
  lemma UpdatedProductKeepsStore(db: Db, id: Id, body: ProductChanges)
    requires ProductController.Update(db, id, body).reply.status == Ok
    ensures var r := ProductController.FindById(ProductController.Update(db, id, body).db, id);
      && r.status == Ok
      && r.payload.product.name == Patch(db.products[id].name, body.name)
      && r.payload.product.price == Patch(db.products[id].price, body.price)
      && r.payload.product.storeId == db.products[id].storeId
  {
  }

  // ----- deletes -----

  /** After a successful delete the row is gone: reading it answers 404. */
  lemma DeletedUserIsGone(db: Db, id: Id, schema: Schema)
    requires UserController.Delete(db, id, schema).reply.status == NoContent
    ensures UserController.FindById(UserController.Delete(db, id, schema).db, id) == Fail(UserNotFound)
  {
  }

  /** A schema that cascades from a user to the store but restricts from the store to its
      products refuses to delete a user whose store still has products: the cascaded store
      delete raises the foreign-key error, the answer is 500 and nothing is removed. */
  lemma CascadeStopsAtStockedStore(db: Db, id: Id, storeId: Id, productId: Id)
    requires id in db.users && storeId in db.stores && db.stores[storeId].userId == id
    requires productId in db.products && db.products[productId].storeId == storeId
    ensures var o := UserController.Delete(db, id, Schema(Cascade, Restrict));
      o.reply == Fail(StorageFailure) && o.db == db
  {
  }

  lemma DeletedStoreIsGone(db: Db, id: Id, schema: Schema)
    requires StoreController.Delete(db, id, schema).reply.status == NoContent
    ensures StoreController.FindById(StoreController.Delete(db, id, schema).db, id) == Fail(StoreNotFound)
  {
  }

  lemma DeletedProductIsGone(db: Db, id: Id)
    requires ProductController.Delete(db, id).reply.status == NoContent
    ensures ProductController.FindById(ProductController.Delete(db, id).db, id) == Fail(ProductNotFound)
  {
  }

  // ----- listing by store -----

  /** In a valid database a store that does not exist has no products, so listing its
      products answers 200 with an empty list rather than 404. */
  lemma UnknownStoreListsNothing(db: Db, storeId: Id)
    requires Valid(db) && storeId !in db.stores
    ensures ProductController.FindByStore(db, storeId) == Reply(Ok, ProductRows([]))
  {
    assert ProductsOf(db.products, storeId) == map[];
  }
}

=== FILE: scenarios.dfy ===
/** Worked request sequences from an empty database, evaluated by the verifier. */
module Scenarios {
  import opened Js
  import opened Database
  import opened Http
  import opened Validation
  import UserController
  import StoreController
  import ProductController

  /** Register Ana, read her back, open her store, fail to open a second one, list the
      store's (empty) products, and fail to add a product with a negative price. */
  lemma AnaOpensOneStore()
    ensures
      var ana := UserFields(Present("Ana"), Present("ana@x.com"), Present("abcdef"));
      var s1 := UserController.Create(Empty, ana);
      && s1.reply == Reply(Created, UserRow(1, User("Ana", "ana@x.com", "abcdef")))
      && UserController.FindById(s1.db, 1) == Reply(Ok, UserRow(1, User("Ana", "ana@x.com", "abcdef")))
      && var s2 := StoreController.Create(s1.db, StoreFields(Present("Loja A"), Present(1)));
      && s2.reply == Reply(Created, StoreRow(1, Store("Loja A", 1)))
      && var s3 := StoreController.Create(s2.db, StoreFields(Present("Loja B"), Present(1)));
      && s3.reply.status == Conflict && s3.db == s2.db
      && ProductController.FindByStore(s3.db, 1) == Reply(Ok, ProductRows([]))
      && var s4 := ProductController.Create(s3.db, ProductFields(Present("Caneta"), Present(-1.0), Present(1)));
      && s4.reply.status == BadRequest && s4.db == s3.db
  {
    var ana := UserFields(Present("Ana"), Present("ana@x.com"), Present("abcdef"));
    var s1 := UserController.Create(Empty, ana);
    var s2 := StoreController.Create(s1.db, StoreFields(Present("Loja A"), Present(1)));
    assert OwnsStore(s2.db.stores, 1) by {
      assert s2.db.stores[1].userId == 1;
    }
    assert ProductsOf(s2.db.products, 1) == map[];
  }

  /** The creation middleware is not mounted in front of the controller: an e-mail the
      middleware rejects is registered anyway. */
  lemma MalformedEmailIsRegistered()
    ensures
      var body := UserFields(Present("Ana"), Present("not-an-email"), Present("abcdef"));
      && ValidateUserCreation(body) == Reject(MalformedEmail)
      && UserController.Create(Empty, body).reply.status == Created
  {
    var body := UserFields(Present("Ana"), Present("not-an-email"), Present("abcdef"));
    Email.ShapeIsPattern("not-an-email");
    assert Js.IndexOf("not-an-email", '@', 0) == |"not-an-email"|;
  }
}

=== FILE: store_controller.dfy ===
/** `StoreController`: the /stores operations as transitions of the abstract database. */
module StoreController {
  import opened Js
  import opened Database
  import opened Http

  /** `name && userId`. */
  predicate HasStoreFields(body: StoreFields) {
    TruthyText(body.name) && TruthyId(body.userId)
  }

  /** POST /stores: presence of name and userId, then the owner exists, then the owner has
      no store yet; only then insert under the next id. */
  function Create(db: Db, body: StoreFields): (o: Outcome)
    ensures o.reply.status in {Created, BadRequest, NotFound, Conflict}
    ensures o.reply == Fail(StoreFieldsRequired) <==> !HasStoreFields(body)
    ensures o.reply == Fail(UserNotFound) <==> HasStoreFields(body) && body.userId.value !in db.users
    ensures o.reply == Fail(UserAlreadyHasStore) <==>
      HasStoreFields(body) && body.userId.value in db.users && OwnsStore(db.stores, body.userId.value)
    ensures Succeeded(o.reply) <==>
      HasStoreFields(body) && body.userId.value in db.users && !OwnsStore(db.stores, body.userId.value)
    ensures !Succeeded(o.reply) ==> o.db == db
    ensures Succeeded(o.reply) ==>
      var id := db.nextStoreId;
      var store := Store(body.name.value, body.userId.value);
      && store.userId in db.users
      && !OwnsStore(db.stores, store.userId)
      && o.reply.payload == StoreRow(id, store)
      && o.db.stores.Keys == db.stores.Keys + {id}
      && o.db.stores[id] == store
      && (forall k | k in db.stores && k != id :: o.db.stores[k] == db.stores[k])
      && o.db.users == db.users && o.db.products == db.products
      && o.db.nextStoreId > id
      && o.db.nextUserId == db.nextUserId && o.db.nextProductId == db.nextProductId
  {
    if !HasStoreFields(body) then Outcome(Fail(StoreFieldsRequired), db)
    else if body.userId.value !in db.users then Outcome(Fail(UserNotFound), db)
    else if OwnsStore(db.stores, body.userId.value) then Outcome(Fail(UserAlreadyHasStore), db)
    else
      var id := db.nextStoreId;
      var store := Store(body.name.value, body.userId.value);
      Outcome(Reply(Created, StoreRow(id, store)), db.(stores := db.stores[id := store], nextStoreId := id + 1))
  }

  /** GET /stores: every store, in id order. */
  function FindAll(db: Db): (r: Reply)
    ensures r.status == Ok && r.payload.StoreRows?
    ensures AscendingRowsOf(r.payload.storeRows, db.stores)
    ensures Valid(db) ==>
      forall id | id in db.stores :: exists i | 0 <= i < |r.payload.storeRows| :: r.payload.storeRows[i].0 == id
  {
    Reply(Ok, StoreRows(Listing(db.stores, db.nextStoreId)))
  }

  /** GET /stores/:id */
  function FindById(db: Db, id: Id): (r: Reply)
    ensures r.status in {Ok, NotFound}
    ensures r == Fail(StoreNotFound) <==> id !in db.stores
    ensures r.status == Ok <==> id in db.stores
    ensures r.status == Ok ==> r.payload == StoreRow(id, db.stores[id])
  {
    if id !in db.stores then Fail(StoreNotFound)
    else Reply(Ok, StoreRow(id, db.stores[id]))
  }

  /** PUT /stores/:id: existence, then only the name is written; the owner never changes. */
  function Update(db: Db, id: Id, body: StoreChanges): (o: Outcome)
    ensures o.reply.status in {Ok, NotFound}
    ensures o.reply == Fail(StoreNotFound) <==> id !in db.stores
    ensures Succeeded(o.reply) <==> id in db.stores
    ensures !Succeeded(o.reply) ==> o.db == db
    ensures Succeeded(o.reply) ==>
      && o.db.stores.Keys == db.stores.Keys
      && o.reply.payload == StoreRow(id, o.db.stores[id])
      && o.db.stores[id].name == Patch(db.stores[id].name, body.name)
      && o.db.stores[id].userId == db.stores[id].userId
      && (forall k | k in db.stores && k != id :: o.db.stores[k] == db.stores[k])
      && o.db.users == db.users && o.db.products == db.products
      && o.db.nextStoreId == db.nextStoreId
      && o.db.nextUserId == db.nextUserId && o.db.nextProductId == db.nextProductId
  {
    if id !in db.stores then Outcome(Fail(StoreNotFound), db)
    else
      var current := db.stores[id];
      var updated := current.(name := Patch(current.name, body.name));
      Outcome(Reply(Ok, StoreRow(id, updated)), db.(stores := db.stores[id := updated]))
  }

  /** DELETE /stores/:id: existence, then the delete. A store that still lists products is
      either refused by a restricting `Product.store` key (500) or removed with its
      products. */
  function Delete(db: Db, id: Id, schema: Schema): (o: Outcome)
    ensures o.reply.status in {NoContent, NotFound, InternalError}
    ensures o.reply == Fail(StoreNotFound) <==> id !in db.stores
    ensures o.reply == Fail(StorageFailure) <==>
      id in db.stores && schema.productStore == Restrict && Stocks(db.products, id)
    ensures Succeeded(o.reply) <==>
      id in db.stores && !(schema.productStore == Restrict && Stocks(db.products, id))
    ensures !Succeeded(o.reply) ==> o.db == db
    ensures Succeeded(o.reply) ==>
      && o.reply.payload == NoBody
      && o.db.stores.Keys == db.stores.Keys - {id}
      && (forall k | k in o.db.stores :: o.db.stores[k] == db.stores[k])
      && o.db.users == db.users
      && (forall p :: p in o.db.products <==> p in db.products && db.products[p].storeId != id)
      && (forall p | p in o.db.products :: o.db.products[p] == db.products[p])
      && o.db.nextUserId == db.nextUserId && o.db.nextStoreId == db.nextStoreId
      && o.db.nextProductId == db.nextProductId
  {
    if id !in db.stores then Outcome(Fail(StoreNotFound), db)
    else if Stocks(db.products, id) && schema.productStore == Restrict then Outcome(Fail(StorageFailure), db)
    else
      var products := map p | p in db.products && db.products[p].storeId != id :: db.products[p];
      Outcome(Reply(NoContent, NoBody), db.(stores := db.stores - {id}, products := products))
  }
}

=== FILE: user_controller.dfy ===
/** `UserController`: the /usuarios operations as transitions of the abstract database.
    Every operation answers with a status and, on success only, changes the user table. */
module UserController {
  import opened Js
  import opened Database
  import opened Http

  /** POST /usuarios: presence of the three fields, then a free e-mail, then insert under
      the next id. */
  function Create(db: Db, body: UserFields): (o: Outcome)
    ensures o.reply.status in {Created, BadRequest, Conflict}
    ensures o.reply == Fail(UserFieldsRequired) <==> !HasUserFields(body)
    ensures o.reply == Fail(EmailAlreadyRegistered) <==>
      HasUserFields(body) && EmailTaken(db.users, body.email.value)
    ensures Succeeded(o.reply) <==> HasUserFields(body) && !EmailTaken(db.users, body.email.value)
    ensures !Succeeded(o.reply) ==> o.db == db
    ensures Succeeded(o.reply) ==>
      var id := db.nextUserId;
      var user := User(body.name.value, body.email.value, body.password.value);
      && o.reply.payload == UserRow(id, user)
      && o.db.users.Keys == db.users.Keys + {id}
      && o.db.users[id] == user
      && (forall k | k in db.users && k != id :: o.db.users[k] == db.users[k])
      && o.db.stores == db.stores && o.db.products == db.products
      && o.db.nextUserId > id
      && o.db.nextStoreId == db.nextStoreId && o.db.nextProductId == db.nextProductId
  {
    if !HasUserFields(body) then Outcome(Fail(UserFieldsRequired), db)
    else if EmailTaken(db.users, body.email.value) then Outcome(Fail(EmailAlreadyRegistered), db)
    else
      var id := db.nextUserId;
      var user := User(body.name.value, body.email.value, body.password.value);
      Outcome(Reply(Created, UserRow(id, user)), db.(users := db.users[id := user], nextUserId := id + 1))
  }

  /** GET /usuarios: every user, in id order. */
  function FindAll(db: Db): (r: Reply)
    ensures r.status == Ok && r.payload.UserRows?
    ensures AscendingRowsOf(r.payload.userRows, db.users)
    ensures Valid(db) ==>
      forall id | id in db.users :: exists i | 0 <= i < |r.payload.userRows| :: r.payload.userRows[i].0 == id
  {
    Reply(Ok, UserRows(Listing(db.users, db.nextUserId)))
  }

  /** GET /usuarios/:id */
  function FindById(db: Db, id: Id): (r: Reply)
    ensures r.status in {Ok, NotFound}
    ensures r == Fail(UserNotFound) <==> id !in db.users
    ensures r.status == Ok <==> id in db.users
    ensures r.status == Ok ==> r.payload == UserRow(id, db.users[id])
  {
    if id !in db.users then Fail(UserNotFound)
    else Reply(Ok, UserRow(id, db.users[id]))
  }

  /** The row PUT /usuarios/:id writes: supplied fields replace the stored ones. */
  function Patched(user: User, body: UserFields): User {
    User(Patch(user.name, body.name), Patch(user.email, body.email), Patch(user.password, body.password))
  }

  /** PUT /usuarios/:id: existence first, then, for a truthy e-mail different from the
      current one, a free e-mail; then the database writes the supplied fields. A supplied
      "" e-mail skips the pre-check, and if another user already holds "" the unique index
      throws, which the catch block answers with 500. */
  function Update(db: Db, id: Id, body: UserFields): (o: Outcome)
    ensures o.reply.status in {Ok, NotFound, Conflict, InternalError}
    ensures o.reply == Fail(UserNotFound) <==> id !in db.users
    ensures o.reply == Fail(EmailAlreadyRegistered) <==>
      && id in db.users
      && TruthyText(body.email) && body.email.value != db.users[id].email
      && EmailTaken(db.users, body.email.value)
    ensures o.reply == Fail(StorageFailure) <==>
      && id in db.users
      && !(TruthyText(body.email) && body.email.value != db.users[id].email && EmailTaken(db.users, body.email.value))
      && EmailHeldByOther(db.users, id, Patch(db.users[id].email, body.email))
    ensures Succeeded(o.reply) <==>
      && id in db.users
      && !(TruthyText(body.email) && body.email.value != db.users[id].email && EmailTaken(db.users, body.email.value))
      && !EmailHeldByOther(db.users, id, Patch(db.users[id].email, body.email))
    ensures !Succeeded(o.reply) ==> o.db == db
    ensures Succeeded(o.reply) ==>
      && id in db.users
      && !EmailHeldByOther(db.users, id, Patch(db.users[id].email, body.email))
      && o.db.users.Keys == db.users.Keys
      && o.reply.payload == UserRow(id, o.db.users[id])
      && o.db.users[id].name == Patch(db.users[id].name, body.name)
      && o.db.users[id].email == Patch(db.users[id].email, body.email)
      && o.db.users[id].password == Patch(db.users[id].password, body.password)
      && (forall k | k in db.users && k != id :: o.db.users[k] == db.users[k])
      && o.db.stores == db.stores && o.db.products == db.products
      && o.db.nextUserId == db.nextUserId
      && o.db.nextStoreId == db.nextStoreId && o.db.nextProductId == db.nextProductId
  {
    if id !in db.users then Outcome(Fail(UserNotFound), db)
    else
      var current := db.users[id];
      if TruthyText(body.email) && body.email.value != current.email && EmailTaken(db.users, body.email.value) then
        Outcome(Fail(EmailAlreadyRegistered), db)
      else
        var updated := Patched(current, body);
        if EmailHeldByOther(db.users, id, updated.email) then Outcome(Fail(StorageFailure), db)
        else Outcome(Reply(Ok, UserRow(id, updated)), db.(users := db.users[id := updated]))
  }

  /** DELETE /usuarios/:id: existence first, then the delete. For a user who owns a store
      the schema decides: a restricting `Store.user` key refuses the delete; a cascading one
      removes the store too, which a restricting `Product.store` key refuses in turn when
      the store still has products. A refusal is a thrown foreign-key error, which the catch
      block answers with 500; otherwise the user goes with the store and its products. */
  function Delete(db: Db, id: Id, schema: Schema): (o: Outcome)
    ensures o.reply.status in {NoContent, NotFound, InternalError}
    ensures o.reply == Fail(UserNotFound) <==> id !in db.users
    ensures o.reply == Fail(StorageFailure) <==>
      && id in db.users && OwnsStore(db.stores, id)
      && (schema.storeOwner == Restrict
          || (schema.productStore == Restrict && OwnedStoreStocked(db.stores, db.products, id)))
    ensures Succeeded(o.reply) <==>
      && id in db.users
      && !(OwnsStore(db.stores, id)
           && (schema.storeOwner == Restrict
               || (schema.productStore == Restrict && OwnedStoreStocked(db.stores, db.products, id))))
    ensures !Succeeded(o.reply) ==> o.db == db
    ensures Succeeded(o.reply) ==>
      && o.reply.payload == NoBody
      && o.db.users.Keys == db.users.Keys - {id}
      && (forall k | k in o.db.users :: o.db.users[k] == db.users[k])
      && (forall s :: s in o.db.stores <==> s in db.stores && db.stores[s].userId != id)
      && (forall s | s in o.db.stores :: o.db.stores[s] == db.stores[s])
      && (forall p :: p in o.db.products <==>
            p in db.products && !(db.products[p].storeId in db.stores && db.stores[db.products[p].storeId].userId == id))
      && (forall p | p in o.db.products :: o.db.products[p] == db.products[p])
      && o.db.nextUserId == db.nextUserId && o.db.nextStoreId == db.nextStoreId
      && o.db.nextProductId == db.nextProductId
  {
    if id !in db.users then Outcome(Fail(UserNotFound), db)
    else if OwnsStore(db.stores, id)
      && (schema.storeOwner == Restrict
          || (schema.productStore == Restrict && OwnedStoreStocked(db.stores, db.products, id)))
    then Outcome(Fail(StorageFailure), db)
    else
      var stores := map s | s in db.stores && db.stores[s].userId != id :: db.stores[s];
      var products := map p | p in db.products
          && !(db.products[p].storeId in db.stores && db.stores[db.products[p].storeId].userId == id)
        :: db.products[p];
      Outcome(Reply(NoContent, NoBody), db.(users := db.users - {id}, stores := stores, products := products))
  }
}

=== FILE: validation.dfy ===
/** The user-payload middlewares `validateUserCreation` and `validateUserUpdate`. Each
    either calls `next()` or answers 400 with the message of the first rule that fails.
    They are exported and imported by the application but no route mounts them, so the
    controllers never run behind them; they are modelled as standalone checks. */
module Validation {
  import opened Js
  import opened Email
  import opened Http

  const MinPasswordLength: nat := 6
  const MinNameLength: nat := 2

  /** The 400 messages of the middlewares, in the order the checks run. */
  datatype ValidationError =
    | FieldsRequired     // name, e-mail and password are required
    | MalformedEmail     // invalid e-mail format
    | PasswordTooShort   // password needs at least 6 characters
    | NameTooShort       // name needs at least 2 characters

  /** `next()`, or a 400 response carrying the error. */
  datatype Verdict = Next | Reject(error: ValidationError)

  /** Creation: presence of all three fields, then the e-mail pattern, then the password
      length, then the name length. The four reject cases are disjoint and together with
      `Next` cover every payload, so each ensures names the single check that decides. */
  function ValidateUserCreation(body: UserFields): (v: Verdict)
    ensures v == Reject(FieldsRequired) <==> !HasUserFields(body)
    ensures v == Reject(MalformedEmail) <==>
      HasUserFields(body) && !MatchesPattern(body.email.value)
    ensures v == Reject(PasswordTooShort) <==>
      HasUserFields(body) && MatchesPattern(body.email.value)
      && Utf16Length(body.password.value) < 6
    ensures v == Reject(NameTooShort) <==>
      HasUserFields(body) && MatchesPattern(body.email.value)
      && Utf16Length(body.password.value) >= 6 && Utf16Length(body.name.value) < 2
    ensures v == Next <==>
      HasUserFields(body) && MatchesPattern(body.email.value)
      && Utf16Length(body.password.value) >= 6 && Utf16Length(body.name.value) >= 2
  {
    if !HasUserFields(body) then Reject(FieldsRequired)
    else
      ShapeIsPattern(body.email.value);
      if !IsEmailShaped(body.email.value) then Reject(MalformedEmail)
      else if Utf16Length(body.password.value) < MinPasswordLength then Reject(PasswordTooShort)
      else if Utf16Length(body.name.value) < MinNameLength then Reject(NameTooShort)
      else Next
  }

  /** A supplied field passes a rule when it is falsy (the rule is skipped) or obeys it. */
  ghost predicate EmailAcceptable(f: Field<string>) {
    TruthyText(f) ==> MatchesPattern(f.value)
  }

  ghost predicate LengthAcceptable(f: Field<string>, min: nat) {
    TruthyText(f) ==> Utf16Length(f.value) >= min
  }

  /** Update: every rule is applied only to a truthy field, in the order e-mail pattern,
      password length, name length; presence is never required. */
  function ValidateUserUpdate(body: UserFields): (v: Verdict)
    ensures v != Reject(FieldsRequired)
    ensures v == Reject(MalformedEmail) <==> !EmailAcceptable(body.email)
    ensures v == Reject(PasswordTooShort) <==>
      EmailAcceptable(body.email) && !LengthAcceptable(body.password, 6)
    ensures v == Reject(NameTooShort) <==>
      EmailAcceptable(body.email) && LengthAcceptable(body.password, 6)
      && !LengthAcceptable(body.name, 2)
    ensures v == Next <==>
      EmailAcceptable(body.email) && LengthAcceptable(body.password, 6)
      && LengthAcceptable(body.name, 2)
  {
    if TruthyText(body.email) && (ShapeIsPattern(body.email.value); !IsEmailShaped(body.email.value)) then
      Reject(MalformedEmail)
    else if TruthyText(body.password) && Utf16Length(body.password.value) < MinPasswordLength then
      Reject(PasswordTooShort)
    else if TruthyText(body.name) && Utf16Length(body.name.value) < MinNameLength then
      Reject(NameTooShort)
    else Next
  }

  /** An update that supplies nothing, or only empty strings, always passes. */
  lemma FalsyUpdatePasses(body: UserFields)
    requires !TruthyText(body.name) && !TruthyText(body.email) && !TruthyText(body.password)
    ensures ValidateUserUpdate(body) == Next
  {
  }

  /** On a payload carrying all three fields, the update check reaches the same verdict
      as the creation check: same pattern, same thresholds, same order. */
  lemma UpdateAgreesWithCreation(body: UserFields)
    requires HasUserFields(body)
    ensures ValidateUserUpdate(body) == ValidateUserCreation(body)
  {
  }

  /** Whatever creation accepts, update accepts too. */
  lemma CreationAcceptedIsUpdateAccepted(body: UserFields)
    ensures ValidateUserCreation(body) == Next ==> ValidateUserUpdate(body) == Next
  {
  }
}
